=== FILE: README.md ===
# Dual-player controller of the multi-language video player

The multi-language video player plays one video in two player instances at once. Each instance sends a different
audio track to a different audio device, so two viewers can hear two languages. The control logic lives in the
main form (`MainForm`). This project models that logic as one sequential state machine. It has five parts:

- **Playback state machine** (`Playback`). `PlayStatus` is one of Stopped, Playing and Paused. Play, Pause and
  Stop each send an exact, ordered batch of commands to the player backend. A `seq<Cmd>` log in the state records
  every backend call.
- **Button enablement** (`Controls`). This is `UpdateUi`. Buttons are enabled only when the configuration is
  ready: the player program's path, a file, and all four track/device selections. Exactly the legal moves of the
  transition table are enabled, and a disabled button delivers no click.
- **Position arbiter** (`Arbiter`). Mouse-down on the position slider sets a flag and mouse-up clears it. While
  the flag is set, the timer's position writes are ignored. A release seeks only after a matching press, and only
  while playing. Any write that changes the slider refreshes the time label, whose drift annotation is red
  exactly when the drift is non-zero.
- **Synchronisation tick** (`Monitor`). Once a second, and only while playing with the backend started, the tick
  queries the backend. It passes the reference time through the arbiter and stores the drift.
- **File load** (`FileLoad`). Choosing a file first forces a Stop unless playback is already stopped. The file is
  then inspected and the four lists are refilled. Each stored default selection is restored only if it indexes
  an item of the new list. As in the source, the stored drift is not reset by a file load or a stop.

`Backend` gives an abstract reading of the command log. It tracks whether a file is playing and whether the pause
toggle is on, and it states the conventions the form keeps when it talks to the backend. Two examples: pause is
toggled off before a stop, and a synchronisation query is made only while playing. `Session` combines all
handlers into one `Step` over events, including timer ticks as the form performs them. It proves that every
run of atomic events keeps the form's status in agreement with that reading, and keeps the log within those
conventions.

## Model

| member | source | states |
|---|---|---|
| Controls.Enabled | MultiLanguageVideoPlayer/MainForm.cs:96-112 | without a ready configuration every button is off; with one, a button is on exactly when the transition table has a move for it from the current status |
| Controls.ReadyLeavesAMove | MultiLanguageVideoPlayer/MainForm.cs:102-104 | once ready, Play or Pause is always available and never both |
| Playback.PlayClicked | MultiLanguageVideoPlayer/MainForm.cs:185-205 | from stopped the log gains exactly AddFile, SetAudioTracks with one-based tracks, SetAudioDevices, SeekTo(slider); from paused exactly SeekTo(slider) then TogglePause; the status becomes Playing and nothing else changes |
| Playback.NameLookupIsPositional | MultiLanguageVideoPlayer/MainForm.cs:192-194 | with distinct device names, looking a selected device up by its name gives the identifier at its position, the one the start batch sends |
| Playback.StopClicked | MultiLanguageVideoPlayer/MainForm.cs:250-259 | the status is Stopped whatever it was; Stop is the last command; a TogglePause precedes it if and only if the status was Paused; nothing else changes |
| Playback.PauseClicked | MultiLanguageVideoPlayer/MainForm.cs:261-267 | the status becomes Paused, exactly one TogglePause is sent, position, scrub flag and all else untouched |
| Playback.PauseThenPlay | MultiLanguageVideoPlayer/MainForm.cs:197-203 | pausing then playing restores the state; the log gains TogglePause, SeekTo(position), TogglePause |
| Playback.StopTwice | MultiLanguageVideoPlayer/MainForm.cs:250-259 | a second Stop sends one more stop command and changes nothing else |
| Backend.StopNeedsPauseOff | MultiLanguageVideoPlayer/MainForm.cs:252-255 | with the players paused, a bare Stop breaks the stop convention and TogglePause followed by Stop keeps it |
| Backend.PlayingAcceptsQuery | MultiLanguageVideoPlayer/MainForm.cs:76-78 | a link between two definitions of the model: the query convention holds exactly in the reading called Playing, the status line 76 tests |
| Backend.EveryCommandAccepted | MultiLanguageVideoPlayer/MainForm.cs:185-267 | in a conforming log, each command is accepted by the state that the commands before it leave |
| Backend.QueriesAndStopsOnlyWhileRunning | MultiLanguageVideoPlayer/MainForm.cs:76-78 | in a conforming log, every query and every stop was sent while the players ran unpaused |
| Arbiter.DriftColour | MultiLanguageVideoPlayer/MainForm.cs:182 | the annotation is red if and only if the drift is non-zero |
| Arbiter.RefreshLabel | MultiLanguageVideoPlayer/MainForm.cs:175-183 | the label shows the stored drift, red if and only if it is non-zero, and nothing else changes |
| Arbiter.SetPosition | MultiLanguageVideoPlayer/MainForm.cs:294-297 | a slider write sets the position; the label is refreshed from the stored drift when the value changes, and the state is untouched when it does not |
| Arbiter.UpdateVideoPosition | MultiLanguageVideoPlayer/MainForm.cs:88-94 | with the scrub flag set the state is unchanged; with it clear the position becomes the given time, and the label is refreshed from the stored drift when the value changes and untouched otherwise; no command, flag unchanged |
| Arbiter.MouseDown | MultiLanguageVideoPlayer/MainForm.cs:276-279 | sets the scrub flag and nothing else |
| Arbiter.MouseUp | MultiLanguageVideoPlayer/MainForm.cs:281-292 | without a preceding press a complete no-op; otherwise clears the flag and sends SeekTo(position) if and only if playing |
| Arbiter.Scrub | MultiLanguageVideoPlayer/MainForm.cs:294-297 | a user move sets the position and changes nothing else except the label; when the value changes the label is refreshed with the stored drift and its colour, and a move to the same value changes nothing |
| Arbiter.ClickOnSlider | MultiLanguageVideoPlayer/MainForm.cs:276-292 | press then release gives the state back, plus one seek to the unchanged position when playing |
| Arbiter.PressIsIdempotent | MultiLanguageVideoPlayer/MainForm.cs:276-292 | the flag is not a counter: two presses equal one and one release ends them |
| Monitor.TickAsWritten | MultiLanguageVideoPlayer/MainForm.cs:72-82 | the tick as written: when not both playing and initialised, nothing changes; otherwise one SyncTime is sent, the drift is stored and the time goes through the arbiter; when the slider moves, the label shows the drift stored before the tick; while the slider is held or the time equals the position the label is untouched |
| Monitor.Tick | MultiLanguageVideoPlayer/MainForm.cs:72-82 | the same, and when the slider moves the label shows the drift just measured, red if and only if it is non-zero; while the slider is held or the time equals the position the label is untouched |
| Monitor.TicksDifferOnlyInLabel | MultiLanguageVideoPlayer/MainForm.cs:78-80 | the corrected tick differs from the written one in the label only |
| Monitor.StaleDriftLabel | MultiLanguageVideoPlayer/MainForm.cs:79-80 | a concrete tick where the written order leaves the label at 0 in black after measuring 3, and the corrected order shows 3 in red |
| Monitor.BlockedTicksKeepPosition | MultiLanguageVideoPlayer/MainForm.cs:88-94 | while the scrub flag is set, any number of ticks leave the position, the flag and the status unchanged |
| Monitor.IdleTicksChangeNothing | MultiLanguageVideoPlayer/MainForm.cs:76 | unless playing with the backend started, any number of ticks change nothing and send nothing |
| Monitor.PlayingTicksQueryOncePerTick | MultiLanguageVideoPlayer/MainForm.cs:76-78 | while playing, n ticks append exactly n SyncTime commands and nothing else |
| FileLoad.ApplyDefault | MultiLanguageVideoPlayer/MainForm.cs:157-159 | a stored default gives a selection if and only if 0 <= d < count, and then the selection is d |
| FileLoad.RestoreDefaults | MultiLanguageVideoPlayer/MainForm.cs:157-171 | each of the four lists shows its stored default exactly when the default fits that list, and every selection fits |
| FileLoad.Inspect | MultiLanguageVideoPlayer/MainForm.cs:121-153 | ends Stopped; if not stopped before, the stop batch comes first; then GetFileInfo; lists cleared; label refreshed with the stored drift, red if and only if it is non-zero |
| FileLoad.LoadFile | MultiLanguageVideoPlayer/MainForm.cs:114-173 | a no-op without a player path or a chosen file; otherwise ends Stopped with the stop forced first, the new file and info, the defaults restored when they fit, and position, flag and drift kept |
| FileLoad.OutOfRangeDefaultsLeaveNothingSelected | MultiLanguageVideoPlayer/MainForm.cs:157-171 | stored defaults outside the new lists (too large, or negative) leave every list without a selection, with no error |
| Session.Choose | MultiLanguageVideoPlayer/MainForm.cs:207-209 | a list-box selection change updates that slot only and keeps every selection within its list |
| Session.Press | MultiLanguageVideoPlayer/MainForm.cs:96-112 | a click on a disabled button changes nothing; a click on an enabled one moves the status as the transition table says |
| Session.Step | MultiLanguageVideoPlayer/MainForm.cs:69-297 | each event, a timer tick as written included, is one atomic step that keeps the selections within their lists |
| Session.Run | MultiLanguageVideoPlayer/MainForm.cs:69-297 | a run of events keeps the selections within their lists |
| Session.InitialInv | MultiLanguageVideoPlayer/MainForm.cs:15 | the form starts stopped, with nothing sent, consistent with the backend reading |
| Session.StartKeepsConsistent | MultiLanguageVideoPlayer/MainForm.cs:187-196 | the start batch is accepted by idle players and leaves them running, matching Playing |
| Session.StopKeepsConsistent | MultiLanguageVideoPlayer/MainForm.cs:250-259 | from playing or paused, the stop batch respects the conventions and leaves the players idle, matching Stopped |
| Session.PressKeepsConsistent | MultiLanguageVideoPlayer/MainForm.cs:185-267 | every enabled click keeps the status in agreement with the backend reading |
| Session.MouseUpKeepsConsistent | MultiLanguageVideoPlayer/MainForm.cs:288-291 | the seek sent on release reaches running players only |
| Session.TickKeepsConsistent | MultiLanguageVideoPlayer/MainForm.cs:74-82 | a tick's query reaches running, unpaused players only |
| Session.LoadKeepsConsistent | MultiLanguageVideoPlayer/MainForm.cs:121-128 | the forced stop and the inspection keep the status in agreement with the backend reading |
| Session.StepKeepsInv | MultiLanguageVideoPlayer/MainForm.cs:69-297 | every event keeps the invariant: selections fit and status agrees with the backend reading of a conforming log (the invariant also records that the label is red exactly when it shows a drift, which holds of every label the model builds) |
| Session.RunKeepsInv | MultiLanguageVideoPlayer/MainForm.cs:69-297 | every sequence of atomic events keeps that invariant |
| Session.QueriesOnlyWhilePlaying | MultiLanguageVideoPlayer/MainForm.cs:76-78 | from the initial state, under any sequence of atomic events, every SyncTime in the log was sent while playing, and the status matches the log |
| Session.UnreadyClicksDoNothing | MultiLanguageVideoPlayer/MainForm.cs:106-111 | with an incomplete configuration no click sends a command or changes the state |
| Session.ScrubWinsOverTicks | MultiLanguageVideoPlayer/MainForm.cs:276-292 | press, drag to p, any ticks, then release while playing: the slider stays at p and the last command is SeekTo(p) |
| Session.ScrubWhilePausedIsHonoured | MultiLanguageVideoPlayer/MainForm.cs:197-203 | pause, scrub to p, release, play: the log gains exactly TogglePause, SeekTo(p), TogglePause, and playback resumes |
| Session.PlayScenario | MultiLanguageVideoPlayer/MainForm.cs:187-196 | concrete start: tracks 1 and 2 and devices A and B give AddFile, SetAudioTracks(1,2), SetAudioDevices(a,b), SeekTo(0) |

## Findings

| source | as written | input that shows it | evidently intended | confidence | as-written member | corrected member |
|---|---|---|---|---|---|---|
| MultiLanguageVideoPlayer/MainForm.cs:79-80 | the tick writes the slider position before storing the new drift; the write refreshes the time label, so the label shows the previous tick's drift | playing, backend started, slider free at 10, stored drift 0; the tick measures time 11 and drift 3 → label shows (0) in black while the stored drift is 3 | the label refreshed by a tick shows the drift that tick measured | medium, not executed | Monitor.TickAsWritten (with Monitor.StaleDriftLabel) | Monitor.Tick |

`Session.Step` runs the tick as written (`Monitor.TickAsWritten`), so every lemma over events is about the form as
it is; `Monitor.Tick` states the intended label and is used by nothing else.

## Left out

- The player backend (`VlcClient`, `VlcManager`) is not part of this model. Each backend call is an entry in the
  command log. Synchronisation samples and inspected-file information are inputs.
- The form sends both audio configurations as one `SetAudioTracks` and one `SetAudioDevices` call and sends no
  separate play command; the model records exactly those calls.
- The form keeps no failure counter, reports no errors from its handlers and sends no per-player commands, so no
  degraded state, error reporting, per-player ordering or rollback is modelled.
- Window presentation is left out: control visibility, window title, tooltip, `Invoke` marshalling, and the label
  text with its time formatting. Only the label's drift value and colour are modelled.
- The slider's range (`SetRange` at line 149) is not modelled. Positions are unbounded integers, so neither the
  slider's clamping nor its rejection of out-of-range values is modelled.
- Settings persistence is left out: saving a selection as the new default (lines 211-236), the reference-video
  radio buttons, and reading settings at start-up. Stored defaults are inputs, and `leftIsReference` is a fixed
  field.
- Configuring the player program (`TryInitVlcManager`, `VlcPathBrowse_Click`) and shutdown (`FormClosing`,
  application exit) are left out. `vlcPath` and `initialized` are fields that no event changes. The path text box
  and the stored path are modelled as one field.
- The timer thread and the lock are left out. Each tick and each user action is one atomic event, interleaved
  with the others. The form does not enforce this: only the timer body takes the lock (line 74) and no click
  handler does, so a tick that has read Playing at line 76 can send its query (line 78) after a Pause or Stop
  click. Session.RunKeepsInv and Session.QueriesOnlyWhilePlaying hold for atomic events only.
- Session.Press: enablement is recomputed from the state at every event. The form refreshes its buttons only after
  play, pause, stop and selection changes. Suppose clearing the lists during a file load reports no selection
  change and no default applies: then a Play button enabled earlier stays on with empty selections, and pressing it
  would fail at line 192 on a missing selected item. The model delivers no such click.
- Playback.PlayClicked: starting from stopped requires all four selections to be present and within their lists.
  In the source a missing track selection is sent as track 0 (line 190) and the handler goes on to Playing; a
  missing device selection fails on a null selected item at line 192 or 193, after AddFile and SetAudioTracks
  have been sent. Neither path is modelled.
- Playback.PlayClicked: a device is looked up by its position in the inspected device list, not by its name.
  Inspected information comes from a dictionary, so its device names are distinct, and under that condition
  Playback.NameLookupIsPositional proves the two lookups agree; a `VideoInfo` with repeated names cannot come
  from the source and is not excluded by the model's types.
- Session.Choose: a list box reports only indices of its own items. An index outside the list cannot arise and
  is ignored.

=== FILE: arbiter.dfy ===
/** The position slider and who may write it: the user (scrubbing with
    the mouse held down) or the synchronisation timer. A flag set on
    mouse-down and cleared on mouse-up keeps the timer from overwriting a
    position the user is dragging. */
module Arbiter {
  import opened PlayerTypes

  /** The colour of the time label for a drift: red for any drift, black
      when the players are aligned. */
  function DriftColour(drift: int): (c: Colour)
    ensures c == Red <==> drift != 0
  {
    if drift != 0 then Red else Black
  }

  /** Recomputes the time label's annotation from the stored drift. */
  function RefreshLabel(s: Player): (r: Player)
    ensures r.annotation.drift == s.drift
    ensures r.annotation.colour == Red <==> s.drift != 0
    ensures r == s.(annotation := r.annotation)
  {
    s.(annotation := Annotation(s.drift, DriftColour(s.drift)))
  }

  /** Writes the slider's value. A slider reports a change, and so refreshes
      the label, only when the new value differs from the old one. */
  function SetPosition(s: Player, p: int): (r: Player)
    ensures r.position == p
    ensures r == s.(position := p, annotation := r.annotation)
    ensures p == s.position ==> r == s
    ensures p != s.position ==> r.annotation.drift == s.drift
    ensures p != s.position ==> (r.annotation.colour == Red <==> s.drift != 0)
  {
    if p == s.position then s else RefreshLabel(s.(position := p))
  }

  /** A position reported by the timer: ignored while the user holds the
      slider, written otherwise. A write that changes the value refreshes
      the label from the stored drift; an equal value changes nothing. */
  function UpdateVideoPosition(s: Player, time: int): (r: Player)
    ensures s.blocked ==> r == s
    ensures !s.blocked ==> r.position == time
    ensures r == s.(position := r.position, annotation := r.annotation)
    ensures r.log == s.log && r.blocked == s.blocked
    ensures !s.blocked && time == s.position ==> r == s
    ensures !s.blocked && time != s.position ==> r.annotation == Annotation(s.drift, DriftColour(s.drift))
  {
    if s.blocked then s else SetPosition(s, time)
  }

  /** The user presses the mouse on the slider. */
  function MouseDown(s: Player): (r: Player)
    ensures r.blocked
    ensures r == s.(blocked := true)
  {
    s.(blocked := true)
  }

  /** The user releases the mouse. Without a matching press nothing
      happens at all. Otherwise the flag is cleared, and the players are
      sent to the released position when, and only when, they are
      playing. */
  function MouseUp(s: Player): (r: Player)
    ensures !r.blocked
    ensures !s.blocked ==> r == s
    ensures s.blocked ==> r == s.(blocked := false, log := r.log)
    ensures s.blocked && s.status == Playing ==> r.log == s.log + [SeekTo(s.position)]
    ensures s.status != Playing ==> r.log == s.log
  {
    if !s.blocked then s
    else
      var released := s.(blocked := false);
      if s.status == Playing then Emit(released, SeekTo(s.position)) else released
  }

  /** The user moves the slider, by dragging it or with the keyboard. */
  function Scrub(s: Player, p: int): (r: Player)
    ensures r.position == p
    ensures r.blocked == s.blocked && r.log == s.log && r.status == s.status
    ensures r == s.(position := p, annotation := r.annotation)
    ensures p != s.position ==> r.annotation == Annotation(s.drift, DriftColour(s.drift))
    ensures p == s.position ==> r == s
  {
    SetPosition(s, p)
  }

  /** A press and a release with no scrub between them give the state back,
      apart from one seek to the unchanged position when playing. */
  lemma ClickOnSlider(s: Player)
    requires !s.blocked
    ensures s.status != Playing ==> MouseUp(MouseDown(s)) == s
    ensures s.status == Playing ==> MouseUp(MouseDown(s)) == s.(log := s.log + [SeekTo(s.position)])
  {
  }

  /** A second press changes nothing: the flag is a flag, not a counter,
      so one release ends any number of presses. */
  lemma PressIsIdempotent(s: Player)
    ensures MouseDown(MouseDown(s)) == MouseDown(s)
    ensures !MouseUp(MouseDown(MouseDown(s))).blocked
  {
  }
}

=== FILE: backend.dfy ===
/** An abstract reading of the command log: what state the pair of
    players is in after the commands sent so far, and which commands the
    backend accepts in which state. The form's own status is proved to
    agree with this reading (see `Session`). */
module Backend {
  import opened PlayerTypes

  /** `active`: a file has been added and not stopped since;
      `paused`: the pause toggle is on. */
  datatype View = View(active: bool, paused: bool)

  const Idle := View(false, false)

  /** The conventions the form keeps when it talks to the backend: a file
      is added only to idle players, configuration, seeks and pause toggles
      go to active players, stop goes to an active player whose pause is
      off (the form toggles pause off first), and a synchronisation query
      is made only while the players run. */
  predicate Accepts(v: View, c: Cmd)
  {
    match c
    case AddFile(_, _) => !v.active
    case SetAudioTracks(_, _) => v.active
    case SetAudioDevices(_, _) => v.active
    case SeekTo(_) => v.active
    case TogglePause => v.active
    case Stop => v.active && !v.paused
    case SyncTime(_) => v.active && !v.paused
    case GetFileInfo(_) => true
  }

  function Apply(v: View, c: Cmd): View
  {
    match c
    case AddFile(_, _) => View(true, false)
    case TogglePause => v.(paused := !v.paused)
    case Stop => Idle
    case _ => v
  }

  function ViewOf(log: seq<Cmd>): View
    decreases |log|
  {
    if log == [] then Idle else Apply(ViewOf(log[..|log| - 1]), log[|log| - 1])
  }

  /** Every command of the log was accepted in the state before it. */
  predicate Valid(log: seq<Cmd>)
    decreases |log|
  {
    log == [] || (Valid(log[..|log| - 1]) && Accepts(ViewOf(log[..|log| - 1]), log[|log| - 1]))
  }

  /** The playback status the backend state corresponds to. */
  function StatusOf(v: View): Status
  {
    if !v.active then Stopped else if v.paused then Paused else Playing
  }

  /** The form's status agrees with the commands it has sent, and those
      commands keep the conventions above. */
  predicate Consistent(s: Player)
  {
    Valid(s.log) && StatusOf(ViewOf(s.log)) == s.status
  }

  /** Extending the log by one command extends the reading by one step. */
  lemma AppendOne(log: seq<Cmd>, c: Cmd)
    ensures ViewOf(log + [c]) == Apply(ViewOf(log), c)
    ensures Valid(log + [c]) <==> Valid(log) && Accepts(ViewOf(log), c)
  {
    assert (log + [c])[..|log + [c]| - 1] == log;
  }

  /** The reading after a batch of commands sent from state `v`. */
  function ApplyAll(v: View, cs: seq<Cmd>): View
    decreases |cs|
  {
    if cs == [] then v else ApplyAll(Apply(v, cs[0]), cs[1..])
  }

  /** Each command of a batch sent from state `v` is accepted in turn. */
  predicate AcceptsAll(v: View, cs: seq<Cmd>)
    decreases |cs|
  {
    cs == [] || (Accepts(v, cs[0]) && AcceptsAll(Apply(v, cs[0]), cs[1..]))
  }

  /** Extending the log by a batch of commands: the reading continues from
      where the log left it, and the longer log respects the conventions
      exactly when the shorter one did and the batch was accepted. */
  lemma {:induction false} AppendAll(log: seq<Cmd>, cs: seq<Cmd>)
    ensures ViewOf(log + cs) == ApplyAll(ViewOf(log), cs)
    ensures Valid(log + cs) <==> Valid(log) && AcceptsAll(ViewOf(log), cs)
    decreases |cs|
  {
    if cs == [] {
      assert log + cs == log;
    } else {
      AppendOne(log, cs[0]);
      AppendAll(log + [cs[0]], cs[1..]);
      assert log + cs == (log + [cs[0]]) + cs[1..];
    }
  }

  /** In a log that respects the conventions, every command was accepted by
      the state its predecessors left. */
  lemma {:induction false} EveryCommandAccepted(log: seq<Cmd>, i: nat)
    requires Valid(log) && i < |log|
    ensures Accepts(ViewOf(log[..i]), log[i])
    decreases |log|
  {
    var last := |log| - 1;
    if i < last {
      EveryCommandAccepted(log[..last], i);
      assert log[..last][..i] == log[..i];
    }
  }

  /** In a log that respects the conventions, every synchronisation query
      was sent while the players were playing, and every stop while they
      were not paused. */
  lemma QueriesAndStopsOnlyWhileRunning(log: seq<Cmd>)
    requires Valid(log)
    ensures forall i :: 0 <= i < |log| && log[i].SyncTime? ==> StatusOf(ViewOf(log[..i])) == Playing
    ensures forall i :: 0 <= i < |log| && log[i].Stop? ==> StatusOf(ViewOf(log[..i])) == Playing
  {
    forall i | 0 <= i < |log|
      ensures log[i].SyncTime? ==> StatusOf(ViewOf(log[..i])) == Playing
      ensures log[i].Stop? ==> StatusOf(ViewOf(log[..i])) == Playing
    {
      EveryCommandAccepted(log, i);
    }
  }

  /** A relation between two of this module's own definitions: the query
      convention holds exactly in the reading `StatusOf` calls `Playing`. */
  lemma PlayingAcceptsQuery(v: View, reference: bool)
    ensures Accepts(v, SyncTime(reference)) <==> StatusOf(v) == Playing
  {
  }

  /** A stop sent to an active player whose pause is still on breaks the
      convention; the toggle must come first. */
  lemma StopNeedsPauseOff(log: seq<Cmd>)
    requires Valid(log) && StatusOf(ViewOf(log)) == Paused
    ensures !Valid(log + [Stop])
    ensures Valid(log + [TogglePause, Stop])
  {
    AppendOne(log, Stop);
    AppendOne(log, TogglePause);
    assert log + [TogglePause, Stop] == (log + [TogglePause]) + [Stop];
    AppendOne(log + [TogglePause], Stop);
  }
}

=== FILE: controls.dfy ===
/** Which of the three playback buttons the user can press. The
    enablement computed here is the only guard on the transitions. */
module Controls {
  import opened PlayerTypes

  /** Ready to play: the player program's path and a file are known and all
      four list boxes have a selection. */
  predicate Ready(s: Player)
  {
    s.vlcPath != "" && s.filePath != "" && AllSelected(s.selection)
  }

  /** The transition table of the playback state machine: the status a
      button leads to from a given status, if it is a legal move at all. */
  function Target(from: Status, b: Button): Option<Status>
  {
    match (from, b)
    case (Stopped, PlayButton) => Some(Playing)
    case (Paused, PlayButton) => Some(Playing)
    case (Playing, PauseButton) => Some(Paused)
    case (Playing, StopButton) => Some(Stopped)
    case (Paused, StopButton) => Some(Stopped)
    case _ => None
  }

  /** Whether a button is enabled. Without a ready configuration every
      button is off; otherwise Play is on unless playing, Stop unless
      stopped, and Pause only while playing. Exactly the legal moves of
      the transition table are enabled. */
  function Enabled(s: Player, b: Button): (on: bool)
    ensures !Ready(s) ==> !on
    ensures on <==> Ready(s) && Target(s.status, b).Some?
  {
    if Ready(s) then
      match b
      case PlayButton => s.status != Playing
      case StopButton => s.status != Stopped
      case PauseButton => s.status == Playing
    else
      false
  }

  /** Whatever the status, at least one button is available once the
      configuration is ready, and Play and Pause are never on together. */
  lemma ReadyLeavesAMove(s: Player)
    requires Ready(s)
    ensures Enabled(s, PlayButton) || Enabled(s, PauseButton)
    ensures !(Enabled(s, PlayButton) && Enabled(s, PauseButton))
  {
  }
}

=== FILE: fileload.dfy ===
/** Choosing a new video file: stop whatever plays, inspect the file,
    refill the four list boxes from it, and restore the stored default
    selections that still fit the new lists. */
module FileLoad {
  import opened PlayerTypes
  import Arbiter
  import Playback

  /** The characters .NET counts as white space: the separators of the
      Unicode categories Zs, Zl and Zp, and the controls U+0009 to U+000D
      and U+0085. */
  predicate IsWhiteSpace(c: char)
  {
    || ('\t' <= c <= '\r') || c == ' ' || c == '\U{0085}' || c == '\U{00A0}'
    || c == '\U{1680}' || ('\U{2000}' <= c <= '\U{200A}') || c == '\U{2028}' || c == '\U{2029}'
    || c == '\U{202F}' || c == '\U{205F}' || c == '\U{3000}'
  }

  /** Empty or made of white space only. */
  predicate IsBlank(s: string)
  {
    forall i :: 0 <= i < |s| ==> IsWhiteSpace(s[i])
  }

  /** The selections remembered from earlier sessions, as stored: plain
      integers, possibly out of range for the new lists. */
  datatype Defaults = Defaults(leftDevice: int, rightDevice: int, leftTrack: int, rightTrack: int)

  /** The selection a stored default gives a freshly filled list of `count`
      items: the stored index when it names an item, and no selection
      (silently, not as an error) otherwise. */
  function ApplyDefault(stored: int, count: nat): (r: Option<nat>)
    ensures r.Some? <==> 0 <= stored < count
    ensures r.Some? ==> r.value == stored
    ensures FitsIn(r, count)
  {
    if 0 <= stored < count then Some(stored) else None
  }

  /** A list box shows the stored default exactly when it fits the list. */
  predicate Restored(sel: Option<nat>, stored: int, count: nat)
  {
    (sel.Some? <==> 0 <= stored < count) && (sel.Some? ==> sel.value == stored)
  }

  /** The stored defaults, each restored when it fits the new lists. */
  function RestoreDefaults(info: VideoInfo, stored: Defaults): (sel: Selection)
    ensures Restored(sel.leftDevice, stored.leftDevice, |info.devices|)
    ensures Restored(sel.rightDevice, stored.rightDevice, |info.devices|)
    ensures Restored(sel.leftTrack, stored.leftTrack, |info.tracks|)
    ensures Restored(sel.rightTrack, stored.rightTrack, |info.tracks|)
    ensures FitsIn(sel.leftTrack, |info.tracks|) && FitsIn(sel.rightTrack, |info.tracks|)
    ensures FitsIn(sel.leftDevice, |info.devices|) && FitsIn(sel.rightDevice, |info.devices|)
  {
    Selection(
      leftTrack := ApplyDefault(stored.leftTrack, |info.tracks|),
      rightTrack := ApplyDefault(stored.rightTrack, |info.tracks|),
      leftDevice := ApplyDefault(stored.leftDevice, |info.devices|),
      rightDevice := ApplyDefault(stored.rightDevice, |info.devices|))
  }

  /** Everything a file choice does before the defaults: stop playback if
      it is not stopped, inspect the file, clear the lists and refresh the
      label. */
  function Inspect(s: Player, path: string, info: VideoInfo): (r: Player)
    ensures r.status == Stopped
    ensures s.status != Stopped ==> r.log == Playback.StopClicked(s).log + [GetFileInfo(path)]
    ensures s.status == Stopped ==> r.log == s.log + [GetFileInfo(path)]
    ensures r.annotation.drift == s.drift
    ensures r.annotation.colour == Red <==> s.drift != 0
    ensures r == s.(status := Stopped, filePath := path, info := Some(info), selection := NoSelection,
                    annotation := r.annotation, log := r.log)
  {
    var stopped := if s.status != Stopped then Playback.StopClicked(s) else s;
    var inspected := Emit(stopped, GetFileInfo(path)).(filePath := path, info := Some(info), selection := NoSelection);
    Arbiter.RefreshLabel(inspected)
  }

  /** The user picks a file (`chosen`, `None` when the dialog is
      cancelled), which inspects as `info`. Nothing happens without a
      configured player program or a chosen file. Otherwise playback is
      stopped first if it is not already, the file is inspected, the lists
      are cleared and refilled, the label is refreshed, and each stored
      default is restored when it fits. Slider position, scrub flag and
      drift are kept. */
  function LoadFile(s: Player, chosen: Option<string>, info: VideoInfo, stored: Defaults): (r: Player)
    ensures IsBlank(s.vlcPath) || chosen.None? ==> r == s
    ensures !IsBlank(s.vlcPath) && chosen.Some? ==>
      && r.status == Stopped
      && r.filePath == chosen.value
      && r.info == Some(info)
      && SelectionFits(r)
      && Restored(r.selection.leftDevice, stored.leftDevice, |info.devices|)
      && Restored(r.selection.rightDevice, stored.rightDevice, |info.devices|)
      && Restored(r.selection.leftTrack, stored.leftTrack, |info.tracks|)
      && Restored(r.selection.rightTrack, stored.rightTrack, |info.tracks|)
      && r.annotation.drift == s.drift
      && (r.annotation.colour == Red <==> s.drift != 0)
      && (s.status != Stopped ==> r.log == Playback.StopClicked(s).log + [GetFileInfo(chosen.value)])
      && (s.status == Stopped ==> r.log == s.log + [GetFileInfo(chosen.value)])
      && r == s.(status := Stopped, filePath := r.filePath, info := r.info, selection := r.selection,
                 annotation := r.annotation, log := r.log)
  {
    if IsBlank(s.vlcPath) || chosen.None? then
      s
    else
      Inspect(s, chosen.value, info).(selection := RestoreDefaults(info, stored))
  }

  /** A file whose lists are too short for every stored default leaves the
      configuration unready, with no error. */
  lemma OutOfRangeDefaultsLeaveNothingSelected(s: Player, path: string, info: VideoInfo, stored: Defaults)
    requires !IsBlank(s.vlcPath)
    requires stored.leftTrack >= |info.tracks| && stored.rightTrack < 0
    requires stored.leftDevice >= |info.devices| && stored.rightDevice >= |info.devices|
    ensures LoadFile(s, Some(path), info, stored).selection == NoSelection
  {
  }
}

=== FILE: monitor.dfy ===
/** The once-a-second synchronisation tick. It asks the backend for the
    reference time and the drift only while playing with the backend
    started, hands the time to the position arbiter, and keeps the drift
    for the time label. The tick does not correct drift. */
module Monitor {
  import opened PlayerTypes
  import Arbiter

  /** The tick as the form writes it: the position is written first, and
      the new drift is stored only afterwards. Writing the position
      refreshes the label, which therefore still shows the previous
      tick's drift. */
  function TickAsWritten(s: Player, sample: SyncSample): (r: Player)
    ensures !(s.status == Playing && s.initialized) ==> r == s
    ensures s.status == Playing && s.initialized ==>
      && r.log == s.log + [SyncTime(s.leftIsReference)]
      && r.drift == sample.timeDifference
      && (s.blocked ==> r.position == s.position)
      && (!s.blocked ==> r.position == sample.currentTime)
      && r == s.(position := r.position, drift := r.drift, annotation := r.annotation, log := r.log)
    ensures s.blocked || sample.currentTime == s.position ==> r.annotation == s.annotation
    ensures s.status == Playing && s.initialized && !s.blocked && sample.currentTime != s.position ==>
      && r.annotation.drift == s.drift
      && (r.annotation.colour == Red <==> s.drift != 0)
  {
    if s.status == Playing && s.initialized then
      var queried := Emit(s, SyncTime(s.leftIsReference));
      var moved := Arbiter.UpdateVideoPosition(queried, sample.currentTime);
      moved.(drift := sample.timeDifference)
    else
      s
  }

  /** The tick with the drift stored before the position is written, so
      that the label refreshed by a position change shows the drift just
      measured. */
  function Tick(s: Player, sample: SyncSample): (r: Player)
    ensures !(s.status == Playing && s.initialized) ==> r == s
    ensures s.status == Playing && s.initialized ==>
      && r.log == s.log + [SyncTime(s.leftIsReference)]
      && r.drift == sample.timeDifference
      && (s.blocked ==> r.position == s.position)
      && (!s.blocked ==> r.position == sample.currentTime)
      && r == s.(position := r.position, drift := r.drift, annotation := r.annotation, log := r.log)
    ensures s.blocked || sample.currentTime == s.position ==> r.annotation == s.annotation
    ensures s.status == Playing && s.initialized && !s.blocked && sample.currentTime != s.position ==>
      && r.annotation.drift == sample.timeDifference
      && (r.annotation.colour == Red <==> sample.timeDifference != 0)
  {
    if s.status == Playing && s.initialized then
      var queried := Emit(s, SyncTime(s.leftIsReference)).(drift := sample.timeDifference);
      Arbiter.UpdateVideoPosition(queried, sample.currentTime)
    else
      s
  }

  /** The two ticks differ in the label only. */
  lemma TicksDifferOnlyInLabel(s: Player, sample: SyncSample)
    ensures TickAsWritten(s, sample) == Tick(s, sample).(annotation := TickAsWritten(s, sample).annotation)
  {
  }

  /** A tick that moves the slider, as written, leaves the label showing
      no drift (in black) although a drift of three seconds was just
      measured. */
  lemma StaleDriftLabel()
    ensures
      var s := Player(Playing, "vlc", true, true, "movie.mkv", None, NoSelection,
                      10, false, 0, Annotation(0, Black), []);
      var sample := SyncSample(11, 3);
      var written := TickAsWritten(s, sample);
      var fixed := Tick(s, sample);
      && written.drift == 3 && written.annotation == Annotation(0, Black)
      && fixed.drift == 3 && fixed.annotation == Annotation(3, Red)
  {
  }

  /** A run of ticks as the form performs them, one sample each. */
  function TickAll(s: Player, samples: seq<SyncSample>): Player
    decreases |samples|
  {
    if samples == [] then s else TickAll(TickAsWritten(s, samples[0]), samples[1..])
  }

  /** While the user holds the slider, any number of ticks leave the
      visible position where the user put it; the flag itself is never
      touched by the timer. */
  lemma {:induction false} BlockedTicksKeepPosition(s: Player, samples: seq<SyncSample>)
    requires s.blocked
    ensures TickAll(s, samples).position == s.position
    ensures TickAll(s, samples).blocked
    ensures TickAll(s, samples).status == s.status
    decreases |samples|
  {
    if samples != [] {
      BlockedTicksKeepPosition(TickAsWritten(s, samples[0]), samples[1..]);
    }
  }

  /** Unless playing with the backend started, any number of ticks change
      nothing and send nothing. */
  lemma {:induction false} IdleTicksChangeNothing(s: Player, samples: seq<SyncSample>)
    requires !(s.status == Playing && s.initialized)
    ensures TickAll(s, samples) == s
    decreases |samples|
  {
    if samples != [] {
      IdleTicksChangeNothing(TickAsWritten(s, samples[0]), samples[1..]);
    }
  }

  /** Every tick of a run while playing sends exactly one query, and
      nothing else. */
  lemma {:induction false} PlayingTicksQueryOncePerTick(s: Player, samples: seq<SyncSample>)
    requires s.status == Playing && s.initialized
    ensures |TickAll(s, samples).log| == |s.log| + |samples|
    ensures TickAll(s, samples).log[..|s.log|] == s.log
    ensures forall i :: |s.log| <= i < |TickAll(s, samples).log| ==>
              TickAll(s, samples).log[i] == SyncTime(s.leftIsReference)
    ensures TickAll(s, samples).status == Playing
    decreases |samples|
  {
    if samples != [] {
      var t := TickAsWritten(s, samples[0]);
      PlayingTicksQueryOncePerTick(t, samples[1..]);
      var r := TickAll(t, samples[1..]);
      assert r.log[..|t.log|] == t.log;
      assert r.log[..|s.log|] == t.log[..|s.log|];
    }
  }
}

=== FILE: playback.dfy ===
/** The three playback handlers: what each sends to the backend, in which
    order, and the status it leaves behind. Each is written for every
    status, as the handlers are; which of them a click can reach is
    decided by `Controls.Enabled`. */
module Playback {
  import opened PlayerTypes

  /** The backend's one-based track number for a list box selection. */
  function TrackNumber(index: nat): int
  {
    index + 1
  }

  /** The backend identifier of the device selected at `index`. */
  function DeviceId(info: VideoInfo, index: nat): string
    requires index < |info.devices|
  {
    info.devices[index].id
  }

  /** The device names of an inspected file are distinct, as the keys of
      the dictionary it is read from. */
  predicate DistinctNames(info: VideoInfo)
  {
    forall i, j :: 0 <= i < j < |info.devices| ==> info.devices[i].name != info.devices[j].name
  }

  /** The form's lookup of a device identifier by the name shown in the
      list box: the identifier of the first device with that name. */
  function DeviceByName(devices: seq<Device>, name: string): Option<string>
    decreases |devices|
  {
    if devices == [] then None
    else if devices[0].name == name then Some(devices[0].id)
    else DeviceByName(devices[1..], name)
  }

  /** With distinct names, looking a selected device up by its name gives
      the identifier at its position, which is what `DeviceId` returns. */
  lemma {:induction false} NameLookupIsPositional(info: VideoInfo, index: nat)
    requires DistinctNames(info) && index < |info.devices|
    ensures DeviceByName(info.devices, info.devices[index].name) == Some(DeviceId(info, index))
    decreases |info.devices|
  {
    if index > 0 {
      assert info.devices[0].name != info.devices[index].name;
      var rest := info.(devices := info.devices[1..]);
      assert rest.devices[index - 1] == info.devices[index];
      NameLookupIsPositional(rest, index - 1);
    }
  }

  /** Starting from stopped needs all four selections; they index the lists
      filled from the inspected file. */
  predicate CanStart(s: Player)
  {
    AllSelected(s.selection) && SelectionFits(s)
  }

  /** Play. From stopped: add the file, set the one-based tracks, set the
      devices, then seek to the slider's position. From paused: seek to the
      slider's position (so a scrub made while paused is honoured), then
      release the pause. Already playing: send nothing. In every case the
      status becomes playing and nothing else changes. */
  function PlayClicked(s: Player): (r: Player)
    requires s.status == Stopped ==> CanStart(s)
    ensures r.status == Playing
    ensures r == s.(status := Playing, log := r.log)
    ensures s.status == Stopped ==>
      var sel := s.selection;
      r.log == s.log + [AddFile(s.filePath, s.leftIsReference),
                        SetAudioTracks(sel.leftTrack.value + 1, sel.rightTrack.value + 1),
                        SetAudioDevices(s.info.value.devices[sel.leftDevice.value].id,
                                        s.info.value.devices[sel.rightDevice.value].id),
                        SeekTo(s.position)]
    ensures s.status == Paused ==> r.log == s.log + [SeekTo(s.position), TogglePause]
    ensures s.status == Playing ==> r.log == s.log
  {
    var sent :=
      match s.status
      case Stopped =>
        var sel := s.selection;
        var info := s.info.value;
        var added := Emit(s, AddFile(s.filePath, s.leftIsReference));
        var tracked := Emit(added, SetAudioTracks(TrackNumber(sel.leftTrack.value), TrackNumber(sel.rightTrack.value)));
        var routed := Emit(tracked, SetAudioDevices(DeviceId(info, sel.leftDevice.value), DeviceId(info, sel.rightDevice.value)));
        Emit(routed, SeekTo(s.position))
      case Paused =>
        Emit(Emit(s, SeekTo(s.position)), TogglePause)
      case Playing =>
        s;
    sent.(status := Playing)
  }

  /** Stop. Whatever the status before, it is stopped after. The pause
      toggle is sent ahead of the stop exactly when the players were
      paused, and the stop is the last command sent. */
  function StopClicked(s: Player): (r: Player)
    ensures r.status == Stopped
    ensures r == s.(status := Stopped, log := r.log)
    ensures |r.log| > |s.log| && r.log[..|s.log|] == s.log && r.log[|r.log| - 1] == Stop
    ensures TogglePause in r.log[|s.log|..] <==> s.status == Paused
    ensures |r.log| == |s.log| + (if s.status == Paused then 2 else 1)
  {
    var released := if s.status == Paused then Emit(s, TogglePause) else s;
    var r := Emit(released, Stop).(status := Stopped);
    var sent := if s.status == Paused then [TogglePause, Stop] else [Stop];
    assert r.log == s.log + sent;
    assert r.log[|s.log|..] == sent;
    r
  }

  /** Pause. The status becomes paused and exactly one pause toggle is
      sent; position, scrub flag and everything else are untouched. */
  function PauseClicked(s: Player): (r: Player)
    ensures r.status == Paused
    ensures r == s.(status := Paused, log := s.log + [TogglePause])
  {
    Emit(s.(status := Paused), TogglePause)
  }

  /** Pausing and then playing again restores the state: the only trace
      left is the toggle, the seek to the unchanged position, and the
      toggle back. */
  lemma PauseThenPlay(s: Player)
    requires s.status == Playing
    ensures PlayClicked(PauseClicked(s)) == s.(log := s.log + [TogglePause, SeekTo(s.position), TogglePause])
  {
    var p := PauseClicked(s);
    assert p.log + [SeekTo(s.position), TogglePause] == s.log + [TogglePause, SeekTo(s.position), TogglePause];
  }

  /** Stopping twice sends a second stop but changes nothing else. */
  lemma StopTwice(s: Player)
    ensures StopClicked(StopClicked(s)) == StopClicked(s).(log := StopClicked(s).log + [Stop])
  {
  }
}

=== FILE: session.dfy ===
/** The form as one sequential machine: every user action and every timer
    tick is one atomic event, applied by one step. The form itself does not
    make events atomic: only the timer body takes the lock and no click
    handler does, so a click can interleave with a tick. The lemmas here
    are about sequences of atomic events. */
module Session {
  import opened PlayerTypes
  import Backend
  import Controls
  import Playback
  import Arbiter
  import Monitor
  import FileLoad

  datatype Slot = LeftTrack | RightTrack | LeftDevice | RightDevice

  datatype Event =
    | Click(button: Button)
    | PositionMouseDown
    | PositionMouseUp
    | PositionScrub(position: int)
    | TimerTick(sample: SyncSample)
    | SelectionChanged(slot: Slot, index: Option<nat>)
    | FileChosen(chosen: Option<string>, info: VideoInfo, stored: FileLoad.Defaults)

  /** The state the form starts in: stopped, nothing chosen, nothing sent. */
  function Initial(vlcPath: string, initialized: bool, leftIsReference: bool): Player
  {
    Player(Stopped, vlcPath, initialized, leftIsReference, "", None, NoSelection,
           0, false, 0, Annotation(0, Black), [])
  }

  /** The number of items of the list box behind a slot. */
  function SlotCount(s: Player, slot: Slot): nat
  {
    if s.info.None? then 0
    else if slot.LeftTrack? || slot.RightTrack? then |s.info.value.tracks|
    else |s.info.value.devices|
  }

  /** The user changes the selection of one list box. A list box reports
      only indices of its own items; any other index cannot arise and
      leaves the state as it is. */
  function Choose(s: Player, slot: Slot, index: Option<nat>): (r: Player)
    requires SelectionFits(s)
    ensures SelectionFits(r)
    ensures FitsIn(index, SlotCount(s, slot)) ==>
      r.selection == match slot
        case LeftTrack => s.selection.(leftTrack := index)
        case RightTrack => s.selection.(rightTrack := index)
        case LeftDevice => s.selection.(leftDevice := index)
        case RightDevice => s.selection.(rightDevice := index)
    ensures r == s.(selection := r.selection)
  {
    if !FitsIn(index, SlotCount(s, slot)) then s
    else
      match slot
      case LeftTrack => s.(selection := s.selection.(leftTrack := index))
      case RightTrack => s.(selection := s.selection.(rightTrack := index))
      case LeftDevice => s.(selection := s.selection.(leftDevice := index))
      case RightDevice => s.(selection := s.selection.(rightDevice := index))
  }

  /** A click on a playback button. A disabled button delivers no click;
      an enabled one moves the status along the transition table. */
  function Press(s: Player, b: Button): (r: Player)
    requires SelectionFits(s)
    ensures !Controls.Enabled(s, b) ==> r == s
    ensures Controls.Enabled(s, b) ==> r.status == Controls.Target(s.status, b).value
    ensures r.selection == s.selection && r.info == s.info
    ensures r.position == s.position && r.blocked == s.blocked
  {
    if !Controls.Enabled(s, b) then s
    else
      match b
      case PlayButton => Playback.PlayClicked(s)
      case PauseButton => Playback.PauseClicked(s)
      case StopButton => Playback.StopClicked(s)
  }

  function Step(s: Player, e: Event): (r: Player)
    requires SelectionFits(s)
    ensures SelectionFits(r)
  {
    match e
    case Click(b) => Press(s, b)
    case PositionMouseDown => Arbiter.MouseDown(s)
    case PositionMouseUp => Arbiter.MouseUp(s)
    case PositionScrub(p) => Arbiter.Scrub(s, p)
    case TimerTick(sample) => Monitor.TickAsWritten(s, sample)
    case SelectionChanged(slot, index) => Choose(s, slot, index)
    case FileChosen(chosen, info, stored) => FileLoad.LoadFile(s, chosen, info, stored)
  }

  function Run(s: Player, events: seq<Event>): (r: Player)
    requires SelectionFits(s)
    ensures SelectionFits(r)
    decreases |events|
  {
    if events == [] then s else Run(Step(s, events[0]), events[1..])
  }

  /** What every reachable state satisfies: the selections index the
      lists, and the status agrees with the commands sent, which keep the
      conventions of `Backend`. The label clause holds of every annotation
      the model builds; it is kept so the invariant covers the whole
      state. */
  predicate Inv(s: Player)
  {
    && SelectionFits(s)
    && Backend.Consistent(s)
    && (s.annotation.colour == Red <==> s.annotation.drift != 0)
  }

  lemma InitialInv(vlcPath: string, initialized: bool, leftIsReference: bool)
    ensures Inv(Initial(vlcPath, initialized, leftIsReference))
  {
  }

  /** The backend reading of a log extended from `s.log` to `r.log`. */
  lemma Extension(s: Player, r: Player)
    requires |s.log| <= |r.log| && r.log[..|s.log|] == s.log
    ensures Backend.ViewOf(r.log) == Backend.ApplyAll(Backend.ViewOf(s.log), r.log[|s.log|..])
    ensures Backend.Valid(r.log) <==> Backend.Valid(s.log) && Backend.AcceptsAll(Backend.ViewOf(s.log), r.log[|s.log|..])
  {
    assert r.log == s.log + r.log[|s.log|..];
    Backend.AppendAll(s.log, r.log[|s.log|..]);
  }

  /** The stop forced by a file choice keeps the status and the log in
      agreement. */
  lemma StopKeepsConsistent(s: Player)
    requires Backend.Consistent(s) && s.status != Stopped
    ensures Backend.Consistent(Playback.StopClicked(s))
  {
    var r := Playback.StopClicked(s);
    Extension(s, r);
    if s.status == Paused {
      assert r.log[|s.log|..] == [TogglePause, Stop];
    } else {
      assert r.log[|s.log|..] == [Stop];
    }
  }

  /** Starting from stopped sends a batch the idle backend accepts and
      that leaves it playing. */
  lemma StartKeepsConsistent(s: Player)
    requires Backend.Consistent(s) && s.status == Stopped && Playback.CanStart(s)
    ensures Backend.Consistent(Playback.PlayClicked(s))
  {
    var r := Playback.PlayClicked(s);
    var sel := s.selection;
    var cs := [AddFile(s.filePath, s.leftIsReference),
               SetAudioTracks(sel.leftTrack.value + 1, sel.rightTrack.value + 1),
               SetAudioDevices(s.info.value.devices[sel.leftDevice.value].id,
                               s.info.value.devices[sel.rightDevice.value].id),
               SeekTo(s.position)];
    assert r.log == s.log + cs;
    Backend.AppendAll(s.log, cs);
    var running := Backend.View(true, false);
    assert Backend.Apply(Backend.ViewOf(s.log), cs[0]) == running;
    assert Backend.AcceptsAll(running, cs[3..]);
    assert Backend.AcceptsAll(running, cs[2..]);
    assert Backend.AcceptsAll(running, cs[1..]);
    assert Backend.ApplyAll(running, cs[3..]) == running;
    assert Backend.ApplyAll(running, cs[2..]) == running;
    assert Backend.ApplyAll(running, cs[1..]) == running;
  }

  lemma PressKeepsConsistent(s: Player, b: Button)
    requires Inv(s)
    ensures Backend.Consistent(Press(s, b))
  {
    var r := Press(s, b);
    if Controls.Enabled(s, b) {
      match b
      case PlayButton =>
        if s.status == Stopped {
          StartKeepsConsistent(s);
        } else {
          Backend.AppendAll(s.log, [SeekTo(s.position), TogglePause]);
        }
      case PauseButton =>
        Backend.AppendOne(s.log, TogglePause);
      case StopButton =>
        StopKeepsConsistent(s);
    }
  }

  lemma MouseUpKeepsConsistent(s: Player)
    requires Inv(s)
    ensures Backend.Consistent(Arbiter.MouseUp(s))
  {
    if s.blocked && s.status == Playing {
      Backend.AppendOne(s.log, SeekTo(s.position));
    }
  }

  lemma TickKeepsConsistent(s: Player, sample: SyncSample)
    requires Inv(s)
    ensures Backend.Consistent(Monitor.TickAsWritten(s, sample))
  {
    if s.status == Playing && s.initialized {
      Backend.AppendOne(s.log, SyncTime(s.leftIsReference));
    }
  }

  lemma LoadKeepsConsistent(s: Player, chosen: Option<string>, info: VideoInfo, stored: FileLoad.Defaults)
    requires Inv(s)
    ensures Backend.Consistent(FileLoad.LoadFile(s, chosen, info, stored))
  {
    if !FileLoad.IsBlank(s.vlcPath) && chosen.Some? {
      var stopped := if s.status != Stopped then Playback.StopClicked(s) else s;
      if s.status != Stopped {
        StopKeepsConsistent(s);
      }
      Backend.AppendOne(stopped.log, GetFileInfo(chosen.value));
      var r := FileLoad.LoadFile(s, chosen, info, stored);
      assert r.log == stopped.log + [GetFileInfo(chosen.value)] && r.status == stopped.status;
    }
  }

  /** Every event keeps the invariant. */
  lemma StepKeepsInv(s: Player, e: Event)
    requires Inv(s)
    ensures Inv(Step(s, e))
  {
    match e
    case Click(b) => PressKeepsConsistent(s, b);
    case PositionMouseUp => MouseUpKeepsConsistent(s);
    case TimerTick(sample) => TickKeepsConsistent(s, sample);
    case FileChosen(chosen, info, stored) => LoadKeepsConsistent(s, chosen, info, stored);
    case _ =>
  }

  /** Every run of atomic events from a state satisfying the invariant
      ends in one: in particular, for any interleaving of whole user
      actions and whole ticks, no query is sent unless playing and no stop
      reaches a paused player. */
  lemma {:induction false} RunKeepsInv(s: Player, events: seq<Event>)
    requires Inv(s)
    ensures Inv(Run(s, events))
    decreases |events|
  {
    if events != [] {
      StepKeepsInv(s, events[0]);
      RunKeepsInv(Step(s, events[0]), events[1..]);
    }
  }

  /** For any sequence of atomic events from the initial state, every
      synchronisation query in the log was sent while playing, and the
      status always agrees with the commands sent. */
  lemma QueriesOnlyWhilePlaying(vlcPath: string, initialized: bool, leftIsReference: bool, events: seq<Event>)
    ensures
      var r := Run(Initial(vlcPath, initialized, leftIsReference), events);
      && Backend.StatusOf(Backend.ViewOf(r.log)) == r.status
      && forall i :: 0 <= i < |r.log| && r.log[i].SyncTime? ==>
           Backend.StatusOf(Backend.ViewOf(r.log[..i])) == Playing
  {
    var s := Initial(vlcPath, initialized, leftIsReference);
    InitialInv(vlcPath, initialized, leftIsReference);
    RunKeepsInv(s, events);
    Backend.QueriesAndStopsOnlyWhileRunning(Run(s, events).log);
  }

  /** Without a ready configuration no click sends anything or changes
      anything. */
  lemma UnreadyClicksDoNothing(s: Player, b: Button)
    requires SelectionFits(s) && !Controls.Ready(s)
    ensures Step(s, Click(b)) == s
  {
  }

  lemma {:induction false} RunAppend(s: Player, a: seq<Event>, b: seq<Event>)
    requires SelectionFits(s)
    ensures Run(s, a + b) == Run(Run(s, a), b)
    decreases |a|
  {
    if a == [] {
      assert a + b == b;
    } else {
      assert (a + b)[1..] == a[1..] + b;
      RunAppend(Step(s, a[0]), a[1..], b);
    }
  }

  /** Not behaviour of the form: a helper for the lemmas below, building
      one timer event per sample. */
  function Ticks(samples: seq<SyncSample>): (es: seq<Event>)
    ensures |es| == |samples|
    ensures forall i :: 0 <= i < |samples| ==> es[i] == TimerTick(samples[i])
  {
    seq(|samples|, i requires 0 <= i < |samples| => TimerTick(samples[i]))
  }

  /** A run of timer events is the run of ticks over their samples. */
  lemma {:induction false} RunTicks(s: Player, samples: seq<SyncSample>)
    requires SelectionFits(s)
    ensures Run(s, Ticks(samples)) == Monitor.TickAll(s, samples)
    decreases |samples|
  {
    if samples != [] {
      assert Ticks(samples)[1..] == Ticks(samples[1..]);
      RunTicks(Monitor.TickAsWritten(s, samples[0]), samples[1..]);
    }
  }

  /** The user presses the slider, drags it to `p`, holds it through any
      number of timer ticks and releases it while playing: the ticks do
      not move it, and the release sends exactly the players to `p`. */
  lemma ScrubWinsOverTicks(s: Player, p: int, samples: seq<SyncSample>)
    requires SelectionFits(s) && s.status == Playing
    ensures
      var r := Run(s, [PositionMouseDown, PositionScrub(p)] + Ticks(samples) + [PositionMouseUp]);
      && r.position == p
      && !r.blocked
      && r.status == Playing
      && |r.log| > 0 && r.log[|r.log| - 1] == SeekTo(p)
  {
    var head := [PositionMouseDown, PositionScrub(p)];
    var pressed := Arbiter.MouseDown(s);
    var held := Arbiter.Scrub(pressed, p);
    assert Step(s, head[0]) == pressed;
    assert Run(s, head) == Run(pressed, head[1..]);
    assert Step(pressed, head[1]) == held;
    assert head[1..][1..] == [];
    assert Run(pressed, head[1..]) == Run(held, []);
    assert Run(s, head) == held;
    RunAppend(s, head, Ticks(samples));
    RunTicks(held, samples);
    Monitor.BlockedTicksKeepPosition(held, samples);
    RunAppend(s, head + Ticks(samples), [PositionMouseUp]);
  }

  /** Pause, scrub to `p` while paused, and play again: the release of the
      slider sends nothing, and playing resumes by seeking to `p` before
      the pause toggle is released. */
  lemma ScrubWhilePausedIsHonoured(s: Player, p: int)
    requires SelectionFits(s) && Controls.Ready(s) && s.status == Playing && !s.blocked
    ensures
      var r := Run(s, [Click(PauseButton), PositionMouseDown, PositionScrub(p), PositionMouseUp, Click(PlayButton)]);
      && r.status == Playing
      && r.position == p
      && r.log == s.log + [TogglePause, SeekTo(p), TogglePause]
  {
    var s1 := Step(s, Click(PauseButton));
    var s2 := Step(s1, PositionMouseDown);
    var s3 := Step(s2, PositionScrub(p));
    var s4 := Step(s3, PositionMouseUp);
    assert s4.log == s.log + [TogglePause] && s4.status == Paused;
    var s5 := Step(s4, Click(PlayButton));
    assert s5.log == s.log + [TogglePause] + [SeekTo(p), TogglePause];
    var es := [Click(PauseButton), PositionMouseDown, PositionScrub(p), PositionMouseUp, Click(PlayButton)];
    assert Run(s, es) == Run(s1, es[1..]);
    assert Run(s1, es[1..]) == Run(s2, es[2..]);
    assert Run(s2, es[2..]) == Run(s3, es[3..]);
    assert Run(s3, es[3..]) == Run(s4, es[4..]);
    assert Run(s4, es[4..]) == s5;
  }

  /** Playing a freshly loaded file: the left video is the reference, the
      left list selects track 1 and device "A", the right list track 2 and
      device "B", the slider is at 0. */
  lemma PlayScenario()
    ensures
      var info := VideoInfo("movie", 3600, ["en", "de"], [Device("A", "a-id"), Device("B", "b-id")]);
      var s := Initial("vlc", true, true).(filePath := "movie.mkv", info := Some(info),
                 selection := Selection(Some(0), Some(1), Some(0), Some(1)));
      var r := Step(s, Click(PlayButton));
      && r.status == Playing
      && r.log == [AddFile("movie.mkv", true), SetAudioTracks(1, 2), SetAudioDevices("a-id", "b-id"), SeekTo(0)]
  {
  }
}

=== FILE: types.dfy ===
/** The data the dual-player form keeps: the playback status, the audio
    configuration chosen for the two players, the position slider and its
    scrub flag, the last measured drift, and the log of every command sent
    to the player backend. */
module PlayerTypes {

  datatype Option<+T> = None | Some(value: T)

  /** `PlayStatus` of the form. */
  datatype Status = Stopped | Playing | Paused

  datatype Button = PlayButton | PauseButton | StopButton

  /** One call into the player backend (`VlcClient`). Nothing is modelled
      of a call but the fact that it was made, with its arguments. */
  datatype Cmd =
    | AddFile(path: string, leftIsReference: bool)
    | SetAudioTracks(leftTrack: int, rightTrack: int)
    | SetAudioDevices(leftDevice: string, rightDevice: string)
    | SeekTo(position: int)
    | TogglePause
    | Stop
    | SyncTime(leftIsReference: bool)
    | GetFileInfo(path: string)

  /** An audio output device: the name shown in the device lists and the
      identifier the backend expects. */
  datatype Device = Device(name: string, id: string)

  /** What inspecting a file reports. The device dictionary is kept as a
      sequence in enumeration order; its names are the dictionary's keys. */
  datatype VideoInfo = VideoInfo(title: string, duration: int, tracks: seq<string>, devices: seq<Device>)

  /** What one synchronisation query returns: the reference player's time
      and the follower's time difference, both in whole seconds. */
  datatype SyncSample = SyncSample(currentTime: int, timeDifference: int)

  datatype Colour = Black | Red

  /** The drift annotation of the time label: the drift it shows and the
      colour it is drawn in. */
  datatype Annotation = Annotation(drift: int, colour: Colour)

  /** The selected index of each of the four list boxes; `None` is the
      list box's "no selection". */
  datatype Selection = Selection(
    leftTrack: Option<nat>,
    rightTrack: Option<nat>,
    leftDevice: Option<nat>,
    rightDevice: Option<nat>)

  const NoSelection := Selection(None, None, None, None)

  datatype Player = Player(
    status: Status,
    vlcPath: string,           // the configured path to the player program
    initialized: bool,         // whether the backend manager started
    leftIsReference: bool,     // the left video is the reference timeline
    filePath: string,          // "" until a file is chosen
    info: Option<VideoInfo>,   // `None` until a file is inspected
    selection: Selection,
    position: int,             // the value of the position slider
    blocked: bool,             // the user is holding the position slider
    drift: int,                // the last measured time difference
    annotation: Annotation,
    log: seq<Cmd>)

  /** An index fits a list of `count` items; no selection always fits. */
  predicate FitsIn(index: Option<nat>, count: nat)
  {
    index.Some? ==> index.value < count
  }

  /** Every selection indexes an item of the lists filled from the
      inspected file; with no file inspected the lists are empty. */
  predicate SelectionFits(s: Player)
  {
    var tracks := if s.info.Some? then |s.info.value.tracks| else 0;
    var devices := if s.info.Some? then |s.info.value.devices| else 0;
    && FitsIn(s.selection.leftTrack, tracks)
    && FitsIn(s.selection.rightTrack, tracks)
    && FitsIn(s.selection.leftDevice, devices)
    && FitsIn(s.selection.rightDevice, devices)
  }

  predicate AllSelected(sel: Selection)
  {
    sel.leftTrack.Some? && sel.rightTrack.Some? && sel.leftDevice.Some? && sel.rightDevice.Some?
  }

  /** Sends one command to the backend. */
  function Emit(s: Player, c: Cmd): Player
  {
    s.(log := s.log + [c])
  }
}
